=== FILE: README.md ===
# fact-check retrieval core in Dafny

This project models the deterministic core of the fact-check pipeline. That pipeline matches marketing claims against clinical documents. The model covers five parts:

- **Word-window chunker** (`chunk_text`, module `Chunking`). It splits a text on whitespace into words and emits overlapping windows of at most `chunk_size` words. Each window starts `chunk_size - overlap` words after the previous one. The loop stops at the first window that reaches the end of the text. With a negative overlap the next start can jump past the end, so the loop can stop without any window reaching the end, and words between windows are skipped (`chunk_text("a b c", 2, -2)` gives one window, and word 2 is in none).
- **Ranker** (`match_claim_to_docs`, module `Matcher`). It takes one similarity score per document and keeps the indices that `argsort()[-top_k:][::-1]` keeps. Each kept index becomes a `Match` with a 200-character snippet.
- **Corpus assembler** (`build_clinical_texts_dict`, module `Matcher`). It processes each named document in dict order. Failures are skipped.
- **Whitespace normalisation**. This covers `clean_text` and the tail of `clean_pdf_text` (module `Preprocess`), and `_clean_text` (module `RagPreprocess`).
- **Paragraph splitting and the PDF file-name filter**. `_split_into_paragraphs` is in `RagPreprocess`; `load_clinical_docs` over a given directory listing is in `Preprocess`.

Shared modules:

- `Text` models Python's `str.isspace`, `str.split()`, `sep.join`, `strip()` and `str.split(sep)` for a one-character separator (the only form the code uses, `split('\n')`). One whitespace predicate, `IsSpace`, serves `split()`, `strip()` and the regex class `\s`.
- `Dicts` models a Python dict as its insertion-ordered list of pairs with distinct keys.
- `Seqs` models a filtered list comprehension as `FilterMap`.

Behaviour of the code worth knowing before reading the model:

- **No argument checks.** The code never checks `chunk_size`, `overlap` or `top_k`.
  - `ChunkText` models chunking as written. The calls that return are those with `overlap < chunk_size` or a text of at most `chunk_size` words; `ChunkText` admits exactly those, and also requires `chunk_size > 0` (see Left out).
  - `ChunkTextChecked` is the guarded version that the Findings row motivates. It returns `InvalidConfig` for a configuration outside `0 <= overlap < chunk_size`.
  - `top_k = 0` and negative `top_k` follow Python's slicing: `[-0:]` is the whole array.
  - The defaults `chunk_size = 150` and `overlap = 30` (src/rag/chunking.py:1) satisfy `0 <= overlap < chunk_size`, so default calls fall under `ChunkText` and are accepted by `ChunkTextChecked`; the default `top_k = 3` (src/matcher.py:21) keeps min(3, n) documents.
- **Tie-breaking.** The code uses numpy's default argsort, which is not stable, so no tie order among equal scores is modelled or proved.

## Model

| member | source | states |
|---|---|---|
| Chunking.ChunkText | src/rag/chunking.py:1-31 | A text of at most chunk_size words comes back as `[text]` itself, whatever the overlap. Otherwise there is one chunk per start the loop visits, and chunk i is the space-join of `words[start_i : min(start_i + chunk_size, W)]`. The loop terminates when overlap < chunk_size. |
| Chunking.ChunkWords | src/rag/chunking.py:19-31 | The while loop on its own, for more words than chunk_size: one chunk per start of Starts from 0, in order, chunk i being the window at start i, and every start inside the text. |
| Chunking.Starts | src/rag/chunking.py:21-29 | The starts the while loop visits from a given start: every one lies at or after that start and before W, the number of words. |
| Chunking.Window | src/rag/chunking.py:23 | One chunk, `" ".join(words[start:start + chunk_size])`: splitting it again gives back exactly the words of the clamped slice. |
| Chunking.StartsStep | src/rag/chunking.py:19-29 | The first window starts at the given start (0 for chunk_text). Every start lies inside the text. Consecutive starts differ by exactly chunk_size - overlap. |
| Chunking.StartsClosedForm | src/rag/chunking.py:19-29 | Window i starts at i * (chunk_size - overlap). |
| Chunking.StartsEnds | src/rag/chunking.py:22-27 | With overlap >= 0, every window but the last ends before W, so it holds exactly chunk_size words. The last window's end reaches W. |
| Chunking.StartsCover | src/rag/chunking.py:21-29 | With overlap >= 0, every word index in 0..W-1 lies inside some window: there are no gaps. |
| Chunking.StartsCount | src/rag/chunking.py:21-29 | With overlap >= 0, for W > C the number of windows is 1 + ceil((W - C) / (C - O)). |
| Chunking.CeilDivStep | src/rag/chunking.py:21-29 | ceil(a/b) = 1 + ceil((a-b)/b) for a > b, and 1 for 0 < a <= b. This is the step the window count takes per pass. |
| Chunking.WindowWords | src/rag/chunking.py:22-23 | Splitting a window again gives back exactly the consecutive words it covers. There are between 1 and chunk_size of them. |
| Chunking.LoopNeverExits | src/rag/chunking.py:21-29 | With overlap >= chunk_size and W > chunk_size, start never rises above 0 after any number of passes. So the loop guard always holds and the break is never taken. |
| Chunking.ChunkTextChecked | src/rag/chunking.py:1-31 | Corrected chunking. It returns InvalidConfig exactly when 0 <= overlap < chunk_size fails. Otherwise: the chunks are those of ChunkText; for long texts there are at least two, the first starts at 0, every word is covered and the last window reaches the end. |
| Matcher.Snippet | src/matcher.py:49 | A text of at most 200 characters comes back unchanged. A longer one becomes its first 200 characters followed by "...", 203 characters in all. |
| Matcher.SliceStart | src/matcher.py:43 | Python's slice-start normalisation: the result never exceeds the length. |
| Matcher.Reverse | src/matcher.py:43 | `[::-1]`: the same length, and entry i is the entry i places from the end. |
| Matcher.TopIndices | src/matcher.py:43 | `argsort()[-top_k:][::-1]`: never more indices than the argsort has, and each one taken from it. |
| Matcher.TopIndicesCount | src/matcher.py:43 | The slice keeps min(top_k, n) indices for top_k >= 1 (never more than top_k), all n for top_k = 0, and n + top_k clamped at 0 for negative top_k. |
| Matcher.TopIndicesAt | src/matcher.py:43 | The i-th selected index is the argsort entry i places from the end, and it lies inside the slice. |
| Matcher.TopIndicesDistinct | src/matcher.py:43 | The selected indices are distinct and in range. |
| Matcher.TopIndicesRanked | src/matcher.py:43 | Scores along the selection never increase: the best match comes first. |
| Matcher.TopIndicesBest | src/matcher.py:43 | No document left out scores higher than any selected one. |
| Matcher.TopZeroTakesAll | src/matcher.py:43 | top_k = 0 selects every document, because `[-0:]` is the whole array. |
| Matcher.MatchClaimToDocs | src/matcher.py:21-57 | The matches follow the selected indices one for one. Each has the name, snippet and score of its own index. The count is min(top_k, n) for top_k >= 1. Scores never increase, and no unselected document scores higher than a returned match. |
| Matcher.BuildClinicalTexts | src/matcher.py:60-81 | The result is the dict's entries in order, each mapped to (name, processed text), with the entries whose processing raised left out. It is never longer than the input. |
| Matcher.Attempt | src/matcher.py:76-80 | The try/except around one entry: it yields (name, text) exactly when processing the path succeeds, with the text processing returned, and nothing when processing raised. |
| Matcher.ProcessedEntries | src/matcher.py:74-81 | Entry i is kept exactly when its processing succeeds. The j-th result is (name, process(path)) of the j-th kept entry, in dict order. |
| Matcher.ProcessedIsDict | src/matcher.py:74-81 | The kept names stay distinct, as the keys of a dict are. |
| Preprocess.CleanText | src/preprocess.py:32-36 | The result has no leading or trailing whitespace. Its only whitespace is single spaces between words. Its word sequence equals the input's. |
| Preprocess.CleanTextIdempotent | src/preprocess.py:36 | Cleaning twice gives the same as cleaning once. |
| Preprocess.CleanTextFixpoint | src/preprocess.py:36 | A text comes back unchanged exactly when it is already normalised. |
| Preprocess.CleanTextBlank | src/preprocess.py:36 | The result is empty exactly when the input is empty or all whitespace. |
| Preprocess.CollapseNewlines | src/preprocess.py:73 | The result never holds two newlines in a row. It is empty only for empty input, and it starts with a newline exactly when the input does. |
| Preprocess.CollapseNewlinesFixpoint | src/preprocess.py:72-73 | A text comes back unchanged exactly when it holds no two newlines in a row. |
| Preprocess.CollapseNewlinesMerge | src/preprocess.py:72-73 | Putting one more newline next to a newline anywhere in a text does not change the result, so every run of newlines, whatever its length, becomes the single newline the fixpoint keeps; with CollapseNewlinesFixpoint this fixes the result for every input. |
| Preprocess.SplitCollapseNewlines | src/preprocess.py:73 | Collapsing newline runs changes no word. |
| Preprocess.CleanPdfText | src/preprocess.py:52-78 | Whatever the pattern removals leave, the result is whitespace-normalised and holds the same words as their output. |
| Preprocess.CleanPdfTextIsClean | src/preprocess.py:75-78 | The cleaned PDF text is a fixed point of clean_text. |
| Preprocess.Lower | src/preprocess.py:27 | Lower-casing keeps the length and maps each ASCII capital to its small letter, leaving every other character alone. |
| Preprocess.PdfNameSuffix | src/preprocess.py:27 | `filename.lower().endswith(".pdf")` holds exactly when the name has at least four characters and ends in '.' followed by p, d and f, each in either case. |
| Preprocess.PathJoin | src/preprocess.py:28 | An absolute name replaces the directory. Otherwise the result starts with the directory and ends with the name, with exactly one "/" between them when the directory is non-empty and lacks one, and nothing between them when the directory is empty or already ends in "/". |
| Preprocess.LoadClinicalDocs | src/preprocess.py:20-29 | The keys are distinct. A name is a key exactly when it is in the listing and its lower-case form ends in ".pdf". Each key maps to the directory joined with it. For a listing without repeats, the entries come in listing order. |
| RagPreprocess.CollapseWhitespace | src/rag/preprocess1.py:21 | After collapsing, whitespace is only single ' ' characters. Empty input stays empty, and the first character stays whitespace or not. |
| RagPreprocess.CollapseWhitespaceLast | src/rag/preprocess1.py:21 | A trailing whitespace run survives as one ' ': the last character is whitespace exactly when the input's is. With CollapseWhitespace and SplitCollapseWhitespace this fixes the result. |
| RagPreprocess.SplitCollapseWhitespace | src/rag/preprocess1.py:21 | Collapsing whitespace runs changes no word. |
| RagPreprocess.StripCollapsed | src/rag/preprocess1.py:21-22 | Stripping collapsed text leaves it normalised. |
| RagPreprocess.CleanText | src/rag/preprocess1.py:20-23 | The result has no leading or trailing whitespace and no whitespace run longer than one space. It keeps the input's words. |
| RagPreprocess.CleanTextAgrees | src/rag/preprocess1.py:20-23 | `_clean_text(t)` equals `clean_text(t)` of src/preprocess.py for every t. |
| RagPreprocess.CleanTextIdempotent | src/rag/preprocess1.py:20-23 | `_clean_text` applied twice gives the same as applied once. |
| RagPreprocess.StripEmpty | src/rag/preprocess1.py:27 | `p.strip()` is empty exactly when p is all whitespace. |
| RagPreprocess.SplitIntoParagraphs | src/rag/preprocess1.py:25-27 | There are never more paragraphs than lines of `split('\n')`; ParagraphsAreCleanedLines says which lines they are. |
| RagPreprocess.ParagraphsShape | src/rag/preprocess1.py:25-27 | Every paragraph is non-empty and normalised, and holds no newline. |
| RagPreprocess.CleanedLineShape | src/rag/preprocess1.py:27 | A cleaned non-blank line is non-empty, normalised and free of newlines. |
| RagPreprocess.ParagraphsAreCleanedLines | src/rag/preprocess1.py:25-27 | The j-th paragraph is `_clean_text` of the j-th line whose strip is non-empty. Order is kept, and the count equals the number of non-blank lines. |
| RagPreprocess.BlankPageHasNoParagraphs | src/rag/preprocess1.py:25-27 | A page made only of whitespace and newlines has no paragraphs. |
| Text.Split | src/preprocess.py:36 | `str.split()` yields non-empty words free of whitespace. |
| Text.Strip | src/preprocess.py:36 | `strip()` leaves no whitespace at either end. |
| Text.SplitEmpty | src/preprocess.py:36 | `split()` yields no words exactly when the text is all whitespace. |
| Text.JoinEnds | src/rag/chunking.py:23 | `sep.join(parts)` of a non-empty list starts with the first part and ends with the last, with sep right after the first part when there are two or more. |
| Text.SplitJoin | src/preprocess.py:36 | Splitting a space-join of words gives back the words. |
| Text.NormalJoinSplit | src/preprocess.py:36 | A normalised text is the space-join of its own words. |
| Text.SplitStrip | src/preprocess.py:36 | Stripping changes no word. |
| Text.SplitOn | src/rag/preprocess1.py:26 | `split('\n')` yields at least one piece, and no piece holds the separator. |
| Text.JoinSplitOn | src/rag/preprocess1.py:26 | Joining the pieces of `split(sep)` with sep gives back the text. |
| Seqs.FilterMapKept | src/rag/preprocess1.py:27 | The j-th result of a filtered comprehension comes from the j-th kept element. The result count equals the number of kept elements. |
| Dicts.Put | src/preprocess.py:28 | `d[k] = v` keeps keys distinct. It replaces an existing key's value in place and appends a new key at the end, changing nothing else. |
| Dicts.Get | src/preprocess.py:28 | `docs[filename]` read back: the lookup used to state what load_clinical_docs stores. It fails exactly when the key is absent, and otherwise returns a value stored under that key. |

## Left out

- TF-IDF and cosine similarity (`build_tfidf_matrix`, and the vectorizer and `cosine_similarity` calls in `match_claim_to_docs`) are scikit-learn numerics. The similarities are a parameter, one score per document. The `claim`, `tfidf_matrix` and `vectorizer` arguments are not modelled.
- numpy's `argsort` is a parameter, constrained to be a permutation that sorts the scores ascending. It is not stable, so no order among equal scores is modelled or proved.
- Scores are mathematical reals. NaN and floating-point rounding are not modelled, and `float(...)` is the identity.
- Matcher.MatchClaimToDocs: clinical_texts is required to have one entry per score. The code would raise an IndexError, or silently read a different document, if the two were out of step.
- The three pattern removals in `clean_pdf_text` (URLs, "Page n of m" footers, bracketed numbers) go through Python's `re` engine. They are one function parameter, `scrub`.
- `extract_pdf_text`, `process_clinical_doc` and `load_marketing_claims` are file I/O. `os.listdir` becomes a given listing of names.
- The error message written to standard output when `process_func` raises is not modelled. The exception itself is modelled as `process_func` returning None; None stands only for an `Exception` subclass, which `except Exception` (src/matcher.py:79) catches. `BaseException` subclasses such as `KeyboardInterrupt` and `SystemExit` propagate out of the loop and are not modelled.
- Preprocess.Lower: lower-cases ASCII letters only, where Python's `str.lower()` also lower-cases other Unicode letters. No non-ASCII character lower-cases to '.', 'p', 'd' or 'f', so IsPdfName still decides every file name exactly as `filename.lower().endswith(".pdf")` does.
- Preprocess.PathJoin: models POSIX `os.path.join` only; the Windows form (backslash separators, drive letters) is not modelled.
- Python's exact Unicode whitespace set is replaced by one fixed `IsSpace` predicate (the characters `str.isspace` accepts), shared by `split()`, `strip()` and `\s`.
- Preprocess.LoadClinicalDocs: the entry order is stated only for listings without repeated names, which is what `os.listdir` returns.
- Chunking.ChunkText: requires chunk_size > 0. With chunk_size <= 0 and overlap < chunk_size the code returns degenerate windows: chunk_size 0 gives empty windows (`chunk_text("a b", 0, -1)` is `["", ""]`), and a negative chunk_size slices with negative ends (`chunk_text("a b c", -1, -3)` is `["a b", ""]`); those calls are not modelled. With overlap >= chunk_size a text longer than chunk_size words never returns, whatever the sign of chunk_size (`chunk_text("a", 0, 0)` loops with start = end = 0); such calls are excluded, and the Findings row and LoopNeverExits cover only chunk_size > 0. Short texts are admitted with any overlap.
- The extraction functions of src/rag/preprocess1.py (`extract_text`, `extract_tables`, `extract_images_and_ocr`, `_safe_ocr`, `_nonzero_area`) are PDF, table and OCR libraries, file I/O and UUIDs.
- src/rag/embedding.py, src/rag/retrieval.py, src/rag/generation.py and src/utils.py are SentenceTransformer/FAISS calls, a Gemini API call, logging and config I/O. They are not part of this model.

## Findings

| source | as written | input that shows it | evidently intended | confidence | as-written member | corrected member |
|---|---|---|---|---|---|---|
| src/rag/chunking.py:21-29 | With overlap >= chunk_size and more than chunk_size words, `start = end - overlap` never advances past 0, so the while loop never ends. | `chunk_text("a b", 1, 1)` | Refuse any configuration outside 0 <= overlap < chunk_size (InvalidConfig); otherwise return windows that cover every word. | not executed | Chunking.LoopNeverExits | Chunking.ChunkTextChecked |

=== FILE: chunking.dfy ===
/**
 * src/rag/chunking.py: chunk_text splits a text into overlapping windows of
 * at most chunk_size words, each window starting chunk_size - overlap words
 * after the one before.
 */
module Chunking {
  import opened Wrappers
  import opened Text

  function Min(a: int, b: int): int {
    if a <= b then a else b
  }

  /** Where the loop moves start after a window that did not reach the end (line 29). */
  function NextStart(start: int, chunkSize: int, overlap: int): int {
    start + chunkSize - overlap
  }

  /**
   * The window starts the loop visits for a text of w words, from start on:
   * one window per start below w, stopping after the first window whose end
   * start + chunkSize reaches w.
   */
  function Starts(w: nat, chunkSize: int, overlap: int, start: nat): (ss: seq<nat>)
    requires 0 < chunkSize && overlap < chunkSize
    ensures forall i :: 0 <= i < |ss| ==> start <= ss[i] < w
    decreases w - start
  {
    if start >= w then []
    else if start + chunkSize >= w then [start]
    else [start] + Starts(w, chunkSize, overlap, NextStart(start, chunkSize, overlap))
  }

  /** " ".join(words[start:start + chunk_size]); Python clamps the slice at the end of words. */
  function Window(words: seq<string>, start: nat, chunkSize: int): (r: string)
    requires start <= |words| && 0 < chunkSize
    ensures AllWords(words) ==> Split(r) == words[start..Min(start + chunkSize, |words|)]
  {
    var covered := words[start..Min(start + chunkSize, |words|)];
    assert AllWords(words) ==> Split(Join(" ", covered)) == covered by {
      if AllWords(words) {
        assert AllWords(covered) by {
          assert forall i :: 0 <= i < |covered| ==> covered[i] == words[start + i];
        }
        SplitJoin(covered);
      }
    }
    Join(" ", covered)
  }

  /**
   * chunk_text. Python never checks chunk_size or overlap. The loop ends
   * whenever overlap < chunk_size; a text of at most chunk_size words is
   * returned before the loop whatever the overlap. Those are the calls that
   * return, and the ones admitted here; chunk_size > 0 is required as well.
   */
  method ChunkText(text: string, chunkSize: int, overlap: int) returns (chunks: seq<string>)
    requires 0 < chunkSize && (overlap < chunkSize || |Split(text)| <= chunkSize)
    ensures |Split(text)| <= chunkSize ==> chunks == [text]
    ensures |Split(text)| > chunkSize ==>
      var words := Split(text);
      var starts := Starts(|words|, chunkSize, overlap, 0);
      && |chunks| == |starts|
      && forall i :: 0 <= i < |starts| ==> starts[i] < |words| && chunks[i] == Window(words, starts[i], chunkSize)
  {
    var words := Split(text);
    if |words| <= chunkSize {
      return [text];
    }
    chunks := ChunkWords(words, chunkSize, overlap);
  }

  /** The while loop of chunk_text over the words of a text longer than one window. */
  method ChunkWords(words: seq<string>, chunkSize: int, overlap: int) returns (chunks: seq<string>)
    requires 0 < chunkSize < |words| && overlap < chunkSize
    ensures var starts := Starts(|words|, chunkSize, overlap, 0);
      && |chunks| == |starts|
      && forall i :: 0 <= i < |starts| ==> starts[i] < |words| && chunks[i] == Window(words, starts[i], chunkSize)
  {
    chunks := [];
    var start: nat := 0;
    ghost var visited: seq<nat> := [];
    while start < |words|
      invariant visited + Starts(|words|, chunkSize, overlap, start) == Starts(|words|, chunkSize, overlap, 0)
      invariant WindowsAt(words, chunkSize, visited, chunks)
      decreases |words| - start
    {
      StartsUnfold(|words|, chunkSize, overlap, start);
      var end := start + chunkSize;
      var chunk := Window(words, start, chunkSize);
      if end < |words| {
        StartsAdvance(|words|, chunkSize, overlap, start, visited);
      }
      WindowsAtExtend(words, chunkSize, visited, chunks, start);
      chunks := chunks + [chunk];
      visited := visited + [start];
      if end >= |words| {
        break;
      }
      start := end - overlap;
    }
  }

  /** chunks holds, one for one, the windows at the starts in visited. */
  ghost predicate WindowsAt(words: seq<string>, chunkSize: int, visited: seq<nat>, chunks: seq<string>)
    requires 0 < chunkSize
  {
    && |chunks| == |visited|
    && forall i :: 0 <= i < |visited| ==> visited[i] < |words| && chunks[i] == Window(words, visited[i], chunkSize)
  }

  /** Appending the window at one more start keeps WindowsAt. */
  lemma WindowsAtExtend(words: seq<string>, chunkSize: int, visited: seq<nat>, chunks: seq<string>, start: nat)
    requires 0 < chunkSize && start < |words| && WindowsAt(words, chunkSize, visited, chunks)
    ensures WindowsAt(words, chunkSize, visited + [start], chunks + [Window(words, start, chunkSize)])
  {
  }

  // ---------------------------------------------------------------------
  // What the windows look like

  /** One step of Starts: the current start, then the rest unless this window reaches the end. */
  lemma StartsUnfold(w: nat, chunkSize: int, overlap: int, start: nat)
    requires 0 < chunkSize && overlap < chunkSize && start < w
    ensures start + chunkSize >= w ==> Starts(w, chunkSize, overlap, start) == [start]
    ensures start + chunkSize < w ==>
      NextStart(start, chunkSize, overlap) >= 0 &&
      Starts(w, chunkSize, overlap, start) == [start] + Starts(w, chunkSize, overlap, NextStart(start, chunkSize, overlap))
  {
  }

  /** Moving start to the next window keeps "visited starts, then the rest" equal to all the starts. */
  lemma StartsAdvance(w: nat, chunkSize: int, overlap: int, start: nat, visited: seq<nat>)
    requires 0 < chunkSize && overlap < chunkSize && start + chunkSize < w
    requires visited + Starts(w, chunkSize, overlap, start) == Starts(w, chunkSize, overlap, 0)
    ensures (visited + [start]) + Starts(w, chunkSize, overlap, start + chunkSize - overlap) == Starts(w, chunkSize, overlap, 0)
  {
    StartsUnfold(w, chunkSize, overlap, start);
    var rest := Starts(w, chunkSize, overlap, start + chunkSize - overlap);
    assert (visited + [start]) + rest == visited + ([start] + rest);
  }

  /** Every start lies in the text, the first is start and each next one is chunkSize - overlap further. */
  lemma {:induction false} StartsStep(w: nat, chunkSize: int, overlap: int, start: nat)
    requires 0 < chunkSize && overlap < chunkSize && start < w
    ensures var ss := Starts(w, chunkSize, overlap, start);
      && |ss| >= 1 && ss[0] == start
      && (forall i :: 0 <= i < |ss| ==> ss[i] < w)
      && (forall i :: 0 <= i < |ss| - 1 ==> ss[i + 1] == ss[i] + chunkSize - overlap)
    decreases w - start
  {
    var next := NextStart(start, chunkSize, overlap);
    if start + chunkSize < w && next < w {
      StartsStep(w, chunkSize, overlap, next);
    }
  }

  /** Window i starts i * (chunkSize - overlap) words after the first. */
  lemma {:induction false} StartsClosedForm(w: nat, chunkSize: int, overlap: int, start: nat)
    requires 0 < chunkSize && overlap < chunkSize && start < w
    ensures var ss := Starts(w, chunkSize, overlap, start);
      forall i :: 0 <= i < |ss| ==> ss[i] == start + i * (chunkSize - overlap)
    decreases w - start
  {
    var next := NextStart(start, chunkSize, overlap);
    if start + chunkSize < w && next < w {
      StartsClosedForm(w, chunkSize, overlap, next);
      var ss := Starts(w, chunkSize, overlap, start);
      forall i | 0 <= i < |ss| ensures ss[i] == start + i * (chunkSize - overlap) {
        if i > 0 {
          assert ss[i] == Starts(w, chunkSize, overlap, next)[i - 1];
          assert start + i * (chunkSize - overlap) == next + (i - 1) * (chunkSize - overlap);
        }
      }
    }
  }

  /**
   * With a non-negative overlap every window but the last ends before the
   * text does, and the last one reaches its end.
   */
  lemma {:induction false} StartsEnds(w: nat, chunkSize: int, overlap: int, start: nat)
    requires 0 <= overlap < chunkSize && start < w
    ensures var ss := Starts(w, chunkSize, overlap, start);
      && |ss| >= 1
      && (forall i :: 0 <= i < |ss| - 1 ==> ss[i] + chunkSize < w)
      && ss[|ss| - 1] + chunkSize >= w
    decreases w - start
  {
    if start + chunkSize < w {
      StartsEnds(w, chunkSize, overlap, NextStart(start, chunkSize, overlap));
    }
  }

  /** Word k lies in one of the windows starting at ss. */
  predicate Covered(ss: seq<nat>, chunkSize: int, k: nat) {
    exists i :: 0 <= i < |ss| && ss[i] <= k < ss[i] + chunkSize
  }

  /** With a non-negative overlap every word lies in some window: there are no gaps. */
  lemma {:induction false} StartsCover(w: nat, chunkSize: int, overlap: int, start: nat, k: nat)
    requires 0 <= overlap < chunkSize && start <= k < w
    ensures Covered(Starts(w, chunkSize, overlap, start), chunkSize, k)
    decreases w - start
  {
    var ss := Starts(w, chunkSize, overlap, start);
    StartsStep(w, chunkSize, overlap, start);
    if k < start + chunkSize {
      assert ss[0] <= k < ss[0] + chunkSize;
    } else {
      var next := NextStart(start, chunkSize, overlap);
      StartsCover(w, chunkSize, overlap, next, k);
      var rest := Starts(w, chunkSize, overlap, next);
      var i :| 0 <= i < |rest| && rest[i] <= k < rest[i] + chunkSize;
      assert ss[i + 1] == rest[i];
    }
  }

  /** ceil(a / b) for a >= 0 and b > 0. */
  function CeilDiv(a: nat, b: nat): nat
    requires b > 0
  {
    (a + b - 1) / b
  }

  lemma MulMono(b: int, m: int, n: int)
    requires b >= 0 && m <= n
    ensures b * m <= b * n
  {
    assert b * n - b * m == b * (n - m);
  }

  /** Euclidean division is determined by its bounds. */
  lemma DivUnique(x: int, b: int, q: int)
    requires b > 0 && b * q <= x < b * q + b
    ensures x / b == q
  {
    var q0 := x / b;
    assert b * q0 <= x < b * q0 + b;
    if q0 + 1 <= q {
      MulMono(b, q0 + 1, q);
    }
    if q + 1 <= q0 {
      MulMono(b, q + 1, q0);
    }
  }

  lemma CeilDivStep(a: nat, b: nat)
    requires b > 0 && a > 0
    ensures CeilDiv(a, b) == 1 + (if a <= b then 0 else CeilDiv(a - b, b))
  {
    if a <= b {
      DivUnique(a + b - 1, b, 1);
    } else {
      var q := (a - b + b - 1) / b;
      assert b * q <= a - b + b - 1 < b * q + b;
      assert b * (q + 1) == b * q + b;
      DivUnique(a + b - 1, b, q + 1);
    }
  }

  /** With a non-negative overlap a text of w > chunkSize words gives 1 + ceil((w - chunkSize) / (chunkSize - overlap)) windows. */
  lemma {:induction false} StartsCount(w: nat, chunkSize: int, overlap: int, start: nat)
    requires 0 <= overlap < chunkSize && start < w
    ensures |Starts(w, chunkSize, overlap, start)|
      == 1 + (if start + chunkSize >= w then 0 else CeilDiv(w - start - chunkSize, chunkSize - overlap))
    decreases w - start
  {
    if start + chunkSize < w {
      var step := chunkSize - overlap;
      var next := NextStart(start, chunkSize, overlap);
      StartsCount(w, chunkSize, overlap, next);
      CeilDivStep(w - start - chunkSize, step);
    }
  }

  /** A window of a split text is exactly the words it covers: between 1 and chunkSize of them. */
  lemma WindowWords(text: string, start: nat, chunkSize: int)
    requires 0 < chunkSize && start < |Split(text)|
    ensures var words := Split(text);
      var covered := words[start..Min(start + chunkSize, |words|)];
      && Split(Window(words, start, chunkSize)) == covered
      && 1 <= |covered| <= chunkSize
  {
    var words := Split(text);
    SplitJoin(words[start..Min(start + chunkSize, |words|)]);
  }

  // ---------------------------------------------------------------------
  // Overlap at least chunk_size: the loop never ends

  /** The value of start after n passes through the loop body that did not break. */
  function StartAfter(n: nat, chunkSize: int, overlap: int): int {
    if n == 0 then 0 else NextStart(StartAfter(n - 1, chunkSize, overlap), chunkSize, overlap)
  }

  /**
   * As written, chunk_text with overlap >= chunk_size on a text of more than
   * chunk_size words never leaves its loop: start never grows past 0, so the
   * guard start < len(words) always holds and end never reaches len(words).
   * chunk_text("a b", 1, 1) is one such call.
   */
  lemma {:induction false} LoopNeverExits(w: nat, chunkSize: int, overlap: int, n: nat)
    requires 0 < chunkSize < w && chunkSize <= overlap
    ensures StartAfter(n, chunkSize, overlap) <= 0
    ensures StartAfter(n, chunkSize, overlap) < w && StartAfter(n, chunkSize, overlap) + chunkSize < w
  {
    if n > 0 {
      LoopNeverExits(w, chunkSize, overlap, n - 1);
    }
  }

  datatype ConfigError = InvalidConfig

  /**
   * chunk_text as evidently intended: a configuration without
   * 0 <= overlap < chunk_size is refused instead of looping or leaving gaps;
   * otherwise the windows start at 0, cover every word and the last one
   * reaches the end of the text.
   */
  method ChunkTextChecked(text: string, chunkSize: int, overlap: int) returns (r: Result<seq<string>, ConfigError>)
    ensures r.Err? <==> !(0 <= overlap < chunkSize)
    ensures r.Ok? && |Split(text)| <= chunkSize ==> r.value == [text]
    ensures r.Ok? && |Split(text)| > chunkSize ==>
      var words := Split(text);
      var starts := Starts(|words|, chunkSize, overlap, 0);
      && |r.value| == |starts| >= 2
      && starts[0] == 0
      && (forall i :: 0 <= i < |starts| ==> starts[i] < |words| && r.value[i] == Window(words, starts[i], chunkSize))
      && (forall k :: 0 <= k < |words| ==> Covered(starts, chunkSize, k))
      && starts[|starts| - 1] + chunkSize >= |words|
  {
    if !(0 <= overlap < chunkSize) {
      return Err(InvalidConfig);
    }
    var chunks := ChunkText(text, chunkSize, overlap);
    var words := Split(text);
    if |words| > chunkSize {
      StartsStep(|words|, chunkSize, overlap, 0);
      StartsEnds(|words|, chunkSize, overlap, 0);
      forall k | 0 <= k < |words| ensures Covered(Starts(|words|, chunkSize, overlap, 0), chunkSize, k) {
        StartsCover(|words|, chunkSize, overlap, 0, k);
      }
    }
    r := Ok(chunks);
  }
}

=== FILE: dicts.dfy ===
/**
 * A Python dict as the pipeline uses it: key/value pairs in insertion order,
 * each key at most once. Assigning to a key that is present replaces its value
 * where it stands; assigning to a new key appends it.
 */
module Dicts {
  import opened Wrappers

  type Dict<K, V> = seq<(K, V)>

  function Keys<K, V>(d: Dict<K, V>): (ks: seq<K>)
    ensures |ks| == |d|
    ensures forall i :: 0 <= i < |d| ==> ks[i] == d[i].0
  {
    if d == [] then [] else [d[0].0] + Keys(d[1..])
  }

  /** No key occurs twice. */
  predicate Distinct<T(==)>(s: seq<T>) {
    forall i, j :: 0 <= i < j < |s| ==> s[i] != s[j]
  }

  predicate ValidDict<K(==), V>(d: Dict<K, V>) {
    Distinct(Keys(d))
  }

  /** d[k], or None when k is absent. */
  function Get<K(==), V(==)>(d: Dict<K, V>, k: K): (r: Option<V>)
    ensures r.None? <==> k !in Keys(d)
    ensures r.Some? ==> exists i :: 0 <= i < |d| && d[i] == (k, r.value)
  {
    if d == [] then None
    else if d[0].0 == k then Some(d[0].1)
    else
      var r := Get(d[1..], k);
      assert Keys(d) == [d[0].0] + Keys(d[1..]);
      r
  }

  /** d[k] = v. */
  function Put<K(==), V(==)>(d: Dict<K, V>, k: K, v: V): (r: Dict<K, V>)
    requires ValidDict(d)
    ensures ValidDict(r)
    ensures Keys(r) == if k in Keys(d) then Keys(d) else Keys(d) + [k]
    ensures forall i :: 0 <= i < |r| ==> r[i] == (if r[i].0 == k then (k, v) else d[i])
    ensures k !in Keys(d) ==> r == d + [(k, v)]
  {
    if k in Keys(d) then
      var i :| 0 <= i < |d| && d[i].0 == k;
      var r := d[i := (k, v)];
      assert Keys(r) == Keys(d) by {
        assert forall j :: 0 <= j < |r| ==> Keys(r)[j] == Keys(d)[j];
      }
      r
    else
      var r := d + [(k, v)];
      assert Keys(r) == Keys(d) + [k] by {
        assert forall j :: 0 <= j < |d| ==> Keys(r)[j] == Keys(d)[j];
      }
      r
  }

  /** In a dict, looking up the key stored at position i finds the value stored there. */
  lemma GetAt<K, V>(d: Dict<K, V>, i: nat)
    requires ValidDict(d) && i < |d|
    ensures Get(d, d[i].0) == Some(d[i].1)
  {
    var k := d[i].0;
    assert Keys(d)[i] == k;
    var g := Get(d, k);
    var m :| 0 <= m < |d| && d[m] == (k, g.value);
    assert Keys(d)[m] == Keys(d)[i];
  }
}

=== FILE: matcher.dfy ===
/**
 * src/matcher.py: ranking the clinical documents against one claim
 * (match_claim_to_docs) and gathering the processed documents
 * (build_clinical_texts_dict). The TF-IDF vectors and their cosine
 * similarities come from scikit-learn and enter here as a given sequence of
 * scores, one per document; numpy's argsort of those scores enters as a given
 * permutation.
 */
module Matcher {
  import opened Wrappers
  import opened Seqs
  import opened Dicts

  /** One result entry: {"document_name", "matching_text", "score"}. */
  datatype Match = Match(documentName: string, matchingText: string, score: real)

  const SnippetLength: nat := 200
  const Ellipsis: string := "..."

  /** doc_text[:200] + "..." if len(doc_text) > 200 else doc_text */
  function Snippet(docText: string): (r: string)
    ensures |docText| <= SnippetLength ==> r == docText
    ensures |docText| > SnippetLength ==>
      |r| == SnippetLength + |Ellipsis| && r[..SnippetLength] == docText[..SnippetLength] && r[SnippetLength..] == Ellipsis
  {
    if |docText| > SnippetLength then docText[..SnippetLength] + Ellipsis else docText
  }

  /**
   * order is what numpy's argsort returns for scores: every index exactly
   * once, scores ascending along it. Equal scores may come in any order.
   */
  predicate IsArgsort(scores: seq<real>, order: seq<nat>) {
    && |order| == |scores|
    && (forall i :: 0 <= i < |order| ==> order[i] < |scores|)
    && (forall k :: 0 <= k < |scores| ==> k in order)
    && Distinct(order)
    && (forall i, j :: 0 <= i < j < |order| ==> scores[order[i]] <= scores[order[j]])
  }

  /** Python's reading of a slice start i on a sequence of length n: negative counts from the end, clamped. */
  function SliceStart(n: nat, i: int): (s: nat)
    ensures s <= n
  {
    if i < 0 then (if n + i < 0 then 0 else n + i)
    else if i > n then n
    else i
  }

  /** s[::-1] */
  function Reverse<T>(s: seq<T>): (r: seq<T>)
    ensures |r| == |s|
    ensures forall i :: 0 <= i < |s| ==> r[i] == s[|s| - 1 - i]
  {
    if s == [] then [] else [s[|s| - 1]] + Reverse(s[..|s| - 1])
  }

  /** argsort()[-top_k:][::-1], given the argsort. */
  function TopIndices(order: seq<nat>, topK: int): (r: seq<nat>)
    ensures |r| <= |order|
    ensures forall i :: 0 <= i < |r| ==> r[i] in order
  {
    Reverse(order[SliceStart(|order|, -topK)..])
  }

  /** How many entries [-top_k:] keeps of n: min(top_k, n) for top_k >= 1, but all n for top_k = 0. */
  function SliceCount(n: nat, topK: int): nat {
    if topK > 0 then (if topK < n then topK else n)
    else if topK == 0 then n
    else if n + topK < 0 then 0 else n + topK
  }

  // ---------------------------------------------------------------------
  // The selection

  /** The slice keeps min(top_k, n) indices for top_k >= 1, all of them for top_k = 0. */
  lemma TopIndicesCount(order: seq<nat>, topK: int)
    ensures |TopIndices(order, topK)| == SliceCount(|order|, topK)
    ensures topK > 0 ==> |TopIndices(order, topK)| <= topK
  {
  }

  /** The position in order of the i-th returned index. */
  lemma TopIndicesAt(order: seq<nat>, topK: int, i: nat)
    requires i < |TopIndices(order, topK)|
    ensures var start := SliceStart(|order|, -topK);
      start <= |order| - 1 - i && TopIndices(order, topK)[i] == order[|order| - 1 - i]
  {
  }

  /** The returned indices are distinct document indices. */
  lemma TopIndicesDistinct(scores: seq<real>, order: seq<nat>, topK: int)
    requires IsArgsort(scores, order)
    ensures var top := TopIndices(order, topK);
      Distinct(top) && forall i :: 0 <= i < |top| ==> top[i] < |scores|
  {
    var top := TopIndices(order, topK);
    forall i, j | 0 <= i < j < |top| ensures top[i] != top[j] {
      TopIndicesAt(order, topK, i);
      TopIndicesAt(order, topK, j);
    }
    forall i | 0 <= i < |top| ensures top[i] < |scores| {
      TopIndicesAt(order, topK, i);
    }
  }

  /** Best match first: the scores along the result never increase. */
  lemma TopIndicesRanked(scores: seq<real>, order: seq<nat>, topK: int)
    requires IsArgsort(scores, order)
    ensures var top := TopIndices(order, topK);
      forall i, j :: 0 <= i < j < |top| ==> top[j] < |scores| && top[i] < |scores| && scores[top[j]] <= scores[top[i]]
  {
    var top := TopIndices(order, topK);
    forall i, j | 0 <= i < j < |top| ensures top[j] < |scores| && top[i] < |scores| && scores[top[j]] <= scores[top[i]] {
      TopIndicesAt(order, topK, i);
      TopIndicesAt(order, topK, j);
    }
  }

  /** Nothing left out scores higher than anything returned. */
  lemma TopIndicesBest(scores: seq<real>, order: seq<nat>, topK: int)
    requires IsArgsort(scores, order)
    ensures var top := TopIndices(order, topK);
      forall i, k :: 0 <= i < |top| && 0 <= k < |scores| && k !in top ==> top[i] < |scores| && scores[k] <= scores[top[i]]
  {
    var top := TopIndices(order, topK);
    forall i, k | 0 <= i < |top| && 0 <= k < |scores| && k !in top
      ensures top[i] < |scores| && scores[k] <= scores[top[i]]
    {
      LeftOutScoresLower(scores, order, topK, i, k);
    }
  }

  /** One selected index against one document left out. */
  lemma LeftOutScoresLower(scores: seq<real>, order: seq<nat>, topK: int, i: nat, k: nat)
    requires IsArgsort(scores, order)
    requires i < |TopIndices(order, topK)| && k < |scores| && k !in TopIndices(order, topK)
    ensures TopIndices(order, topK)[i] < |scores| && scores[k] <= scores[TopIndices(order, topK)[i]]
  {
    var start := SliceStart(|order|, -topK);
    TopIndicesAt(order, topK, i);
    assert k in order;
    var p :| 0 <= p < |order| && order[p] == k;
    if start <= p {
      TopIndicesAt(order, topK, |order| - 1 - p);
    }
  }

  /** top_k = 0 returns every document, since [-0:] is the whole array. */
  lemma TopZeroTakesAll(scores: seq<real>, order: seq<nat>)
    requires IsArgsort(scores, order)
    ensures forall k :: 0 <= k < |scores| ==> k in TopIndices(order, 0)
  {
    var top := TopIndices(order, 0);
    forall k | 0 <= k < |scores| ensures k in top {
      assert k in order;
      var p :| 0 <= p < |order| && order[p] == k;
      TopIndicesAt(order, 0, |order| - 1 - p);
    }
  }

  /**
   * match_claim_to_docs from the similarity scores on: one Match per selected
   * index, best first. clinicalTexts holds (document_name, document_text)
   * pairs in the rows of the TF-IDF matrix, similarities the cosine score of
   * each row, order their argsort.
   */
  method MatchClaimToDocs(clinicalTexts: seq<(string, string)>, similarities: seq<real>, order: seq<nat>, topK: int)
    returns (matches: seq<Match>)
    requires |similarities| == |clinicalTexts|
    requires IsArgsort(similarities, order)
    ensures var top := TopIndices(order, topK);
      && |matches| == |top|
      && forall i :: 0 <= i < |top| ==>
        && top[i] < |clinicalTexts|
        && matches[i] == Match(clinicalTexts[top[i]].0, Snippet(clinicalTexts[top[i]].1), similarities[top[i]])
    ensures |matches| == SliceCount(|clinicalTexts|, topK)
    ensures forall i, j :: 0 <= i < j < |matches| ==> matches[j].score <= matches[i].score
    ensures forall i, k :: 0 <= i < |matches| && 0 <= k < |similarities| && k !in TopIndices(order, topK) ==>
      similarities[k] <= matches[i].score
  {
    var topIndices := TopIndices(order, topK);
    TopIndicesDistinct(similarities, order, topK);
    matches := [];
    for j := 0 to |topIndices|
      invariant |matches| == j
      invariant forall i :: 0 <= i < j ==>
        matches[i] == Match(clinicalTexts[topIndices[i]].0, Snippet(clinicalTexts[topIndices[i]].1), similarities[topIndices[i]])
    {
      var idx := topIndices[j];
      var (docName, docText) := clinicalTexts[idx];
      var snippet := Snippet(docText);
      matches := matches + [Match(docName, snippet, similarities[idx])];
    }
    MatchesRanked(clinicalTexts, similarities, order, topK, matches);
  }

  /** Matches laid out along TopIndices have its count, its order and its top-k property. */
  lemma MatchesRanked(clinicalTexts: seq<(string, string)>, similarities: seq<real>, order: seq<nat>, topK: int, matches: seq<Match>)
    requires |similarities| == |clinicalTexts|
    requires IsArgsort(similarities, order)
    requires var top := TopIndices(order, topK);
      && |matches| == |top|
      && forall i :: 0 <= i < |top| ==> top[i] < |similarities| && matches[i].score == similarities[top[i]]
    ensures |matches| == SliceCount(|clinicalTexts|, topK)
    ensures forall i, j :: 0 <= i < j < |matches| ==> matches[j].score <= matches[i].score
    ensures forall i, k :: 0 <= i < |matches| && 0 <= k < |similarities| && k !in TopIndices(order, topK) ==>
      similarities[k] <= matches[i].score
  {
    TopIndicesCount(order, topK);
    TopIndicesRanked(similarities, order, topK);
    TopIndicesBest(similarities, order, topK);
  }

  // ---------------------------------------------------------------------
  // build_clinical_texts_dict

  /** One pass of the loop: (doc_name, process_func(path)), or None when process_func raised. */
  function Attempt(process: string -> Option<string>): (r: ((string, string)) -> Option<(string, string)>)
    ensures forall entry: (string, string) :: r(entry).Some? <==> process(entry.1).Some?
    ensures forall entry: (string, string) :: r(entry).Some? ==> r(entry).value == (entry.0, process(entry.1).value)
  {
    (entry: (string, string)) => match process(entry.1)
      case Some(text) => Some((entry.0, text))
      case None => None
  }

  /**
   * build_clinical_texts_dict: process every (name, path) entry of the dict in
   * order, keep (name, text) when processing succeeded and skip the entry
   * when it raised.
   */
  method BuildClinicalTexts(clinicalDocs: Dict<string, string>, process: string -> Option<string>)
    returns (clinicalTexts: seq<(string, string)>)
    ensures clinicalTexts == FilterMap(clinicalDocs, Attempt(process))
    ensures |clinicalTexts| <= |clinicalDocs|
  {
    clinicalTexts := [];
    for i := 0 to |clinicalDocs|
      invariant clinicalTexts == FilterMap(clinicalDocs[..i], Attempt(process))
    {
      var (docName, path) := clinicalDocs[i];
      assert clinicalDocs[..i + 1][..i] == clinicalDocs[..i];
      match process(path) {
        case Some(text) =>
          clinicalTexts := clinicalTexts + [(docName, text)];
        case None =>
      }
    }
    assert clinicalDocs[..|clinicalDocs|] == clinicalDocs;
  }

  /**
   * The kept pairs are exactly the entries whose processing succeeded, in
   * dict order, each paired with its own processed text.
   */
  lemma ProcessedEntries(clinicalDocs: Dict<string, string>, process: string -> Option<string>)
    ensures var texts := FilterMap(clinicalDocs, Attempt(process));
      var idx := Kept(clinicalDocs, Attempt(process));
      && |texts| == |idx|
      && Increasing(idx)
      && (forall i :: 0 <= i < |clinicalDocs| ==> (i in idx <==> process(clinicalDocs[i].1).Some?))
      && (forall j :: 0 <= j < |idx| ==>
            && idx[j] < |clinicalDocs|
            && process(clinicalDocs[idx[j]].1).Some?
            && texts[j] == (clinicalDocs[idx[j]].0, process(clinicalDocs[idx[j]].1).value))
  {
    var texts := FilterMap(clinicalDocs, Attempt(process));
    var idx := Kept(clinicalDocs, Attempt(process));
    FilterMapKept(clinicalDocs, Attempt(process));
    forall j | 0 <= j < |idx|
      ensures process(clinicalDocs[idx[j]].1).Some?
      ensures texts[j] == (clinicalDocs[idx[j]].0, process(clinicalDocs[idx[j]].1).value)
    {
      assert Attempt(process)(clinicalDocs[idx[j]]).Some?;
    }
  }

  /** Processing a dict keeps its keys distinct. */
  lemma ProcessedIsDict(clinicalDocs: Dict<string, string>, process: string -> Option<string>)
    requires ValidDict(clinicalDocs)
    ensures ValidDict(FilterMap(clinicalDocs, Attempt(process)))
  {
    var texts := FilterMap(clinicalDocs, Attempt(process));
    var idx := Kept(clinicalDocs, Attempt(process));
    ProcessedEntries(clinicalDocs, process);
    assert forall j :: 0 <= j < |idx| ==> idx[j] < |clinicalDocs| && texts[j].0 == clinicalDocs[idx[j]].0;
    KeysAtIncreasing(clinicalDocs, texts, idx);
  }

  /** Entries whose keys are those of a dict at increasing positions form a dict. */
  lemma KeysAtIncreasing<V, W>(d: Dict<string, V>, texts: seq<(string, W)>, idx: seq<nat>)
    requires ValidDict(d) && |texts| == |idx| && Increasing(idx)
    requires forall j :: 0 <= j < |idx| ==> idx[j] < |d| && texts[j].0 == d[idx[j]].0
    ensures ValidDict(texts)
  {
    forall a, b | 0 <= a < b < |texts| ensures Keys(texts)[a] != Keys(texts)[b] {
      assert Keys(d)[idx[a]] != Keys(d)[idx[b]];
    }
  }
}

=== FILE: preprocess.dfy ===
/**
 * src/preprocess.py: whitespace normalisation (clean_text), the final steps of
 * clean_pdf_text, and the PDF file-name filter of load_clinical_docs.
 */
module Preprocess {
  import opened Wrappers
  import opened Text
  import opened Dicts

  /** clean_text: ' '.join(text.strip().split()). */
  function CleanText(text: string): (r: string)
    ensures Normal(r)
    ensures Split(r) == Split(text)
  {
    var ws := Split(Strip(text));
    SplitStrip(text);
    JoinNormal(ws);
    SplitJoin(ws);
    Join(" ", ws)
  }

  /** Cleaning twice is cleaning once. */
  lemma CleanTextIdempotent(text: string)
    ensures CleanText(CleanText(text)) == CleanText(text)
  {
    var c := CleanText(text);
    SplitStrip(c);
    SplitStrip(text);
  }

  /** Text comes back unchanged exactly when it is already normalised. */
  lemma CleanTextFixpoint(text: string)
    ensures CleanText(text) == text <==> Normal(text)
  {
    if Normal(text) {
      SplitStrip(text);
      NormalJoinSplit(text);
    }
  }

  /** The result is empty exactly when the input is empty or whitespace only. */
  lemma CleanTextBlank(text: string)
    ensures CleanText(text) == "" <==> AllSpace(text)
  {
    SplitEmpty(text);
    SplitEmpty(CleanText(text));
    assert AllSpace("");
    if CleanText(text) != "" {
      var c := CleanText(text);
      assert !IsSpace(c[0]);
      assert !AllSpace(c);
    }
  }

  // ---------------------------------------------------------------------
  // clean_pdf_text

  /** Length of the leading run of characters other than '\n'. */
  function LineLen(s: string): (n: nat)
    ensures n <= |s| && '\n' !in s[..n]
    ensures n < |s| ==> s[n] == '\n'
  {
    IndexOf(s, '\n')
  }

  /** Length of the leading run of '\n' characters. */
  function NewlineRun(s: string): (n: nat)
    ensures n <= |s| && forall i :: 0 <= i < n ==> s[i] == '\n'
    ensures n < |s| ==> s[n] != '\n'
  {
    if s == [] || s[0] != '\n' then 0 else 1 + NewlineRun(s[1..])
  }

  /** No two newlines in a row. */
  predicate NoDoubleNewline(s: string) {
    forall i :: 0 <= i < |s| - 1 ==> !(s[i] == '\n' && s[i + 1] == '\n')
  }

  /** re.sub(r'\n+', '\n', s): every maximal run of newlines becomes one. */
  function CollapseNewlines(s: string): (r: string)
    ensures r == [] <==> s == []
    ensures s != [] ==> (r[0] == '\n' <==> s[0] == '\n')
    ensures NoDoubleNewline(r)
    decreases |s|
  {
    if s == [] then []
    else if s[0] == '\n' then
      var rest := CollapseNewlines(s[NewlineRun(s)..]);
      var r := "\n" + rest;
      assert forall i :: 0 < i < |r| ==> r[i] == rest[i - 1];
      r
    else
      var n := LineLen(s);
      var line, rest := s[..n], CollapseNewlines(s[n..]);
      var r := line + rest;
      assert forall i :: 0 <= i < n ==> r[i] == line[i];
      assert forall i :: n <= i < |r| ==> r[i] == rest[i - n];
      r
  }

  /** Collapsing newline runs changes no word, since '\n' is whitespace. */
  lemma {:induction false} SplitCollapseNewlines(s: string)
    ensures Split(CollapseNewlines(s)) == Split(s)
    decreases |s|
  {
    if s != [] {
      if s[0] == '\n' {
        var k := NewlineRun(s);
        SplitCollapseNewlines(s[k..]);
        SplitCollapsedRun(s, k);
      } else {
        var n := LineLen(s);
        SplitCollapseNewlines(s[n..]);
        SplitCollapsedLine(s, n);
      }
    }
  }

  /** The step of SplitCollapseNewlines for a leading run of k newlines. */
  lemma SplitCollapsedRun(s: string, k: nat)
    requires s != [] && s[0] == '\n' && k == NewlineRun(s)
    requires Split(CollapseNewlines(s[k..])) == Split(s[k..])
    ensures Split(CollapseNewlines(s)) == Split(s)
  {
    var rest := CollapseNewlines(s[k..]);
    assert CollapseNewlines(s) == "\n" + rest;
    assert Split("\n" + rest) == Split(rest) by {
      SplitSkipSpace("\n" + rest);
      assert ("\n" + rest)[1..] == rest;
    }
    assert Split(s) == Split(s[k..]) by {
      assert AllSpace(s[..k]);
      SplitAfterSpaces(s[..k], s[k..]);
      TakeDrop(s, k);
    }
  }

  /** The step of SplitCollapseNewlines for a leading line of n characters. */
  lemma SplitCollapsedLine(s: string, n: nat)
    requires s != [] && s[0] != '\n' && n == LineLen(s)
    requires Split(CollapseNewlines(s[n..])) == Split(s[n..])
    ensures Split(CollapseNewlines(s)) == Split(s)
  {
    var line := s[..n];
    var rest := CollapseNewlines(s[n..]);
    assert CollapseNewlines(s) == line + rest;
    assert Split(line + rest) == Split(line) + Split(rest) by {
      if rest != [] {
        assert s[n..][0] == '\n';
      }
      SplitAppend(line, rest);
    }
    assert Split(s) == Split(line) + Split(s[n..]) by {
      if n < |s| {
        assert s[n..][0] == '\n';
      }
      SplitAppend(line, s[n..]);
      TakeDrop(s, n);
    }
  }

  /** A text with no two newlines in a row is exactly one the collapse leaves unchanged. */
  lemma {:induction false} CollapseNewlinesFixpoint(s: string)
    ensures CollapseNewlines(s) == s <==> NoDoubleNewline(s)
    decreases |s|
  {
    if s != [] && NoDoubleNewline(s) {
      if s[0] == '\n' {
        assert NewlineRun(s) == 1 by {
          assert |s| == 1 || s[1..][0] != '\n';
        }
        assert NoDoubleNewline(s[1..]) by {
          assert forall i :: 0 <= i < |s| - 1 ==> s[1..][i] == s[i + 1];
        }
        CollapseNewlinesFixpoint(s[1..]);
        assert "\n" + s[1..] == s;
      } else {
        var n := LineLen(s);
        assert NoDoubleNewline(s[n..]) by {
          assert forall i :: 0 <= i < |s| - n ==> s[n..][i] == s[n + i];
        }
        CollapseNewlinesFixpoint(s[n..]);
        TakeDrop(s, n);
      }
    }
  }

  /**
   * A newline put next to another one changes nothing: the collapse turns a
   * run of any length into a single '\n'.
   */
  lemma {:induction false} CollapseNewlinesMerge(a: string, t: string)
    requires t != [] && t[0] == '\n'
    ensures CollapseNewlines(a + ("\n" + t)) == CollapseNewlines(a + t)
    decreases |a|
  {
    var u := "\n" + t;
    if a == [] {
      assert a + u == u && a + t == t;
      MergeAtStart(u, t);
    } else if a[0] == '\n' {
      var k := NewlineRun(a);
      if k < |a| {
        CollapseNewlinesMerge(a[k..], t);
        MergeAfterRun(a, u, t, k);
      } else {
        MergeAfterNewlines(a, u, t);
      }
    } else {
      var n := LineLen(a);
      CollapseNewlinesMerge(a[n..], t);
      MergeAfterLine(a, u, t, n);
    }
  }

  /** CollapseNewlinesMerge with nothing before the added newline. */
  lemma MergeAtStart(u: string, t: string)
    requires t != [] && t[0] == '\n' && u == "\n" + t
    ensures CollapseNewlines(u) == CollapseNewlines(t)
  {
    CollapseAfterNewlines("\n", t);
    RunUnfold(t);
  }

  /** CollapseNewlinesMerge when a is made of newlines only. */
  lemma MergeAfterNewlines(a: string, u: string, t: string)
    requires t != [] && t[0] == '\n' && u == "\n" + t
    requires a != [] && NewlineRun(a) == |a|
    ensures CollapseNewlines(a + u) == CollapseNewlines(a + t)
  {
    var m := NewlineRun(t);
    assert u[1..] == t;
    assert NewlineRun(u) == m + 1;
    assert u[m + 1..] == t[m..];
    CollapseAfterNewlines(a, u);
    CollapseAfterNewlines(a, t);
  }

  /** Newlines before a text that starts with one all merge into its first run. */
  lemma CollapseAfterNewlines(a: string, t: string)
    requires a != [] && NewlineRun(a) == |a| && t != [] && t[0] == '\n'
    ensures CollapseNewlines(a + t) == "\n" + CollapseNewlines(t[NewlineRun(t)..])
  {
    var at := a + t;
    var m := NewlineRun(t);
    var p := NewlineRun(at);
    assert p == |a| + m by {
      NewlineRunAppend(a, t);
    }
    assert at[p..] == t[m..] by {
      SliceAppend(a, t, |a|);
      assert a[|a|..] + t == t;
      assert at[|a|..] == t;
    }
    assert at[0] == '\n';
    RunUnfold(at);
  }

  /** The collapse of a text starting with a newline: one '\n', then the collapse after the run. */
  lemma RunUnfold(s: string)
    requires s != [] && s[0] == '\n'
    ensures CollapseNewlines(s) == "\n" + CollapseNewlines(s[NewlineRun(s)..])
  {
  }

  /** The step of CollapseNewlinesMerge past a leading run of k newlines that ends inside a. */
  lemma MergeAfterRun(a: string, u: string, t: string, k: nat)
    requires t != [] && t[0] == '\n' && u == "\n" + t
    requires a != [] && a[0] == '\n' && k == NewlineRun(a) && k < |a|
    requires CollapseNewlines(a[k..] + u) == CollapseNewlines(a[k..] + t)
    ensures CollapseNewlines(a + u) == CollapseNewlines(a + t)
  {
    NewlineRunAppend(a, u);
    NewlineRunAppend(a, t);
    SliceAppend(a, u, k);
    SliceAppend(a, t, k);
    assert (a + u)[0] == '\n' && (a + t)[0] == '\n';
    RunUnfold(a + u);
    RunUnfold(a + t);
  }

  /** The step of CollapseNewlinesMerge past a leading line of n characters. */
  lemma MergeAfterLine(a: string, u: string, t: string, n: nat)
    requires t != [] && t[0] == '\n' && u == "\n" + t
    requires a != [] && a[0] != '\n' && n == LineLen(a)
    requires CollapseNewlines(a[n..] + u) == CollapseNewlines(a[n..] + t)
    ensures CollapseNewlines(a + u) == CollapseNewlines(a + t)
  {
    LineLenAppend(a, u);
    LineLenAppend(a, t);
    SliceAppend(a, u, n);
    SliceAppend(a, t, n);
    assert (a + u)[0] == a[0] && (a + t)[0] == a[0];
  }

  /** A newline run inside a stays the same length after appending; one filling a continues into t. */
  lemma {:induction false} NewlineRunAppend(a: string, t: string)
    ensures NewlineRun(a) < |a| ==> NewlineRun(a + t) == NewlineRun(a)
    ensures NewlineRun(a) == |a| ==> NewlineRun(a + t) == |a| + NewlineRun(t)
    decreases |a|
  {
    if a == [] {
      assert a + t == t;
    } else if a[0] == '\n' {
      NewlineRunAppend(a[1..], t);
      assert (a + t)[1..] == a[1..] + t;
    } else {
      assert (a + t)[0] == a[0];
    }
  }

  /** The first line of a is the first line of a + t when a holds a newline or t starts with one. */
  lemma LineLenAppend(a: string, t: string)
    requires LineLen(a) < |a| || (t != [] && t[0] == '\n')
    ensures LineLen(a + t) == LineLen(a)
  {
    var n := LineLen(a);
    assert (a + t)[n] == '\n';
  }

  /**
   * clean_pdf_text. The three pattern removals (URLs, "Page n of m" footers,
   * bracketed numbers) are the parameter scrub; the newline collapse and the
   * final clean_text are modelled as written.
   */
  function CleanPdfText(text: string, scrub: string -> string): (r: string)
    ensures Normal(r)
    ensures Split(r) == Split(scrub(text))
  {
    var collapsed := CollapseNewlines(scrub(text));
    SplitCollapseNewlines(scrub(text));
    CleanText(collapsed)
  }

  /** Whatever the pattern removals leave, the cleaned PDF text is a fixed point of clean_text. */
  lemma CleanPdfTextIsClean(text: string, scrub: string -> string)
    ensures CleanText(CleanPdfText(text, scrub)) == CleanPdfText(text, scrub)
  {
    CleanTextFixpoint(CleanPdfText(text, scrub));
  }

  // ---------------------------------------------------------------------
  // load_clinical_docs

  /** str.lower() on ASCII letters; other characters are left alone. */
  function Lower(s: string): (r: string)
    ensures |r| == |s|
    ensures forall i :: 0 <= i < |s| ==> r[i] == (if 'A' <= s[i] <= 'Z' then s[i] - 'A' + 'a' else s[i])
  {
    if s == [] then []
    else [LowerChar(s[0])] + Lower(s[1..])
  }

  /** One character of Lower. */
  function LowerChar(ch: char): char {
    if 'A' <= ch <= 'Z' then ch - 'A' + 'a' else ch
  }

  predicate EndsWith(s: string, suffix: string) {
    |suffix| <= |s| && s[|s| - |suffix|..] == suffix
  }

  /** filename.lower().endswith(".pdf") */
  predicate IsPdfName(name: string) {
    EndsWith(Lower(name), ".pdf")
  }

  /** A PDF name is one whose last four characters are '.' and p, d, f in either case. */
  lemma PdfNameSuffix(name: string)
    ensures IsPdfName(name) <==>
      && |name| >= 4
      && name[|name| - 4] == '.'
      && name[|name| - 3] in "pP"
      && name[|name| - 2] in "dD"
      && name[|name| - 1] in "fF"
  {
    if |name| >= 4 {
      var n := |name|;
      PdfNameLower(name);
      LowerAt(name, n - 4, '.', '.');
      LowerAt(name, n - 3, 'p', 'P');
      LowerAt(name, n - 2, 'd', 'D');
      LowerAt(name, n - 1, 'f', 'F');
    } else {
      assert !EndsWith(Lower(name), ".pdf");
    }
  }

  /** IsPdfName reads the last four characters of the lower-cased name. */
  lemma PdfNameLower(name: string)
    requires |name| >= 4
    ensures var low, n := Lower(name), |name|;
      IsPdfName(name) <==> low[n - 4] == '.' && low[n - 3] == 'p' && low[n - 2] == 'd' && low[n - 1] == 'f'
  {
    EndsWithPdf(Lower(name));
  }

  /** Ending in ".pdf" is a test of the last four characters. */
  lemma EndsWithPdf(s: string)
    requires |s| >= 4
    ensures var n := |s|;
      EndsWith(s, ".pdf") <==> s[n - 4] == '.' && s[n - 3] == 'p' && s[n - 2] == 'd' && s[n - 1] == 'f'
  {
    var n := |s|;
    assert s[n - 4..] == [s[n - 4], s[n - 3], s[n - 2], s[n - 1]];
  }

  /** Character i of the lower-cased name is c exactly when the name has c or cap there. */
  lemma LowerAt(name: string, i: nat, c: char, cap: char)
    requires i < |name|
    requires (c == '.' && cap == '.') || ('a' <= c <= 'z' && cap == c - 'a' + 'A')
    ensures Lower(name)[i] == c <==> name[i] in [c, cap]
  {
    assert Lower(name)[i] == LowerChar(name[i]);
    LowerCharIs(name[i], c, cap);
  }

  /** A character lower-cases to c exactly when it is c or its capital cap. */
  lemma LowerCharIs(ch: char, c: char, cap: char)
    requires (c == '.' && cap == '.') || ('a' <= c <= 'z' && cap == c - 'a' + 'A')
    ensures LowerChar(ch) == c <==> ch == c || ch == cap
  {
  }

  /** os.path.join(directory, name) on POSIX. */
  function PathJoin(directory: string, name: string): (r: string)
    ensures |name| > 0 && name[0] == '/' ==> r == name
    ensures !(|name| > 0 && name[0] == '/') ==> EndsWith(r, name) && |r| >= |directory| && r[..|directory|] == directory
    ensures !(|name| > 0 && name[0] == '/') && directory != [] && directory[|directory| - 1] != '/' ==> r == directory + "/" + name
    ensures !(|name| > 0 && name[0] == '/') && (directory == [] || directory[|directory| - 1] == '/') ==> r == directory + name
  {
    if |name| > 0 && name[0] == '/' then name
    else if directory == [] || directory[|directory| - 1] == '/' then directory + name
    else directory + "/" + name
  }

  /** The PDF entries of a listing, in listing order: the dict the loop builds when names are distinct. */
  function PdfEntries(directory: string, listing: seq<string>): (d: Dict<string, string>)
  {
    if listing == [] then []
    else
      var name := listing[|listing| - 1];
      PdfEntries(directory, listing[..|listing| - 1])
        + (if IsPdfName(name) then [(name, PathJoin(directory, name))] else [])
  }

  /** One more listed name adds its entry at the end when it is a PDF name. */
  lemma PdfEntriesStep(directory: string, listing: seq<string>, i: nat)
    requires i < |listing|
    ensures PdfEntries(directory, listing[..i + 1])
      == PdfEntries(directory, listing[..i])
        + (if IsPdfName(listing[i]) then [(listing[i], PathJoin(directory, listing[i]))] else [])
  {
    assert listing[..i + 1][..i] == listing[..i];
  }

  /** What the loop of load_clinical_docs has built after the first i names of the listing. */
  ghost predicate LoadedUpTo(directory: string, listing: seq<string>, i: nat, docs: Dict<string, string>)
    requires i <= |listing|
  {
    && ValidDict(docs)
    && (forall name :: name in Keys(docs) <==> name in listing[..i] && IsPdfName(name))
    && (forall j :: 0 <= j < |docs| ==> docs[j].1 == PathJoin(directory, docs[j].0))
    && (Distinct(listing) ==> docs == PdfEntries(directory, listing[..i]))
  }

  /** One pass of the loop: a PDF name is assigned its joined path, any other name is passed over. */
  function LoadOne(directory: string, docs: Dict<string, string>, filename: string): Dict<string, string>
    requires ValidDict(docs)
  {
    if IsPdfName(filename) then Put(docs, filename, PathJoin(directory, filename)) else docs
  }

  /** Each pass of the loop keeps LoadedUpTo. */
  lemma LoadStep(directory: string, listing: seq<string>, i: nat, docs: Dict<string, string>)
    requires i < |listing| && LoadedUpTo(directory, listing, i, docs)
    ensures LoadedUpTo(directory, listing, i + 1, LoadOne(directory, docs, listing[i]))
  {
    LoadStepKeys(directory, listing, i, docs);
    LoadStepValues(directory, docs, listing[i]);
    if Distinct(listing) {
      LoadStepEntries(directory, listing, i, docs);
    }
  }

  /** A pass adds the current name to the keys exactly when it is a PDF name. */
  lemma LoadStepKeys(directory: string, listing: seq<string>, i: nat, docs: Dict<string, string>)
    requires i < |listing| && ValidDict(docs)
    requires forall name :: name in Keys(docs) <==> name in listing[..i] && IsPdfName(name)
    ensures forall name :: name in Keys(LoadOne(directory, docs, listing[i])) <==> name in listing[..i + 1] && IsPdfName(name)
  {
    var filename := listing[i];
    assert listing[..i + 1] == listing[..i] + [filename];
    if IsPdfName(filename) {
      var next := Put(docs, filename, PathJoin(directory, filename));
      assert Keys(next) == if filename in Keys(docs) then Keys(docs) else Keys(docs) + [filename];
    }
  }

  /** A pass keeps the keys distinct and every value the joined path of its key. */
  lemma LoadStepValues(directory: string, docs: Dict<string, string>, filename: string)
    requires ValidDict(docs)
    requires forall j :: 0 <= j < |docs| ==> docs[j].1 == PathJoin(directory, docs[j].0)
    ensures var next := LoadOne(directory, docs, filename);
      ValidDict(next) && forall j :: 0 <= j < |next| ==> next[j].1 == PathJoin(directory, next[j].0)
  {
  }

  /** With no repeated names, a pass appends exactly the entry PdfEntries adds. */
  lemma LoadStepEntries(directory: string, listing: seq<string>, i: nat, docs: Dict<string, string>)
    requires i < |listing| && ValidDict(docs) && Distinct(listing)
    requires forall name :: name in Keys(docs) <==> name in listing[..i] && IsPdfName(name)
    requires docs == PdfEntries(directory, listing[..i])
    ensures LoadOne(directory, docs, listing[i]) == PdfEntries(directory, listing[..i + 1])
  {
    var filename := listing[i];
    PdfEntriesStep(directory, listing, i);
    if IsPdfName(filename) {
      assert filename !in listing[..i];
      assert filename !in Keys(docs);
    }
  }

  /**
   * load_clinical_docs over the directory listing os.listdir returned:
   * maps each name whose lower-case form ends in ".pdf" to its joined path.
   */
  method LoadClinicalDocs(directory: string, listing: seq<string>) returns (docs: Dict<string, string>)
    ensures ValidDict(docs)
    ensures forall name :: name in Keys(docs) <==> name in listing && IsPdfName(name)
    ensures forall name :: name in listing && IsPdfName(name) ==> Get(docs, name) == Some(PathJoin(directory, name))
    ensures forall i :: 0 <= i < |docs| ==> docs[i].1 == PathJoin(directory, docs[i].0)
    ensures Distinct(listing) ==> docs == PdfEntries(directory, listing)
  {
    docs := [];
    for i := 0 to |listing|
      invariant LoadedUpTo(directory, listing, i, docs)
    {
      LoadStep(directory, listing, i, docs);
      var filename := listing[i];
      if IsPdfName(filename) {
        docs := Put(docs, filename, PathJoin(directory, filename));
      }
    }
    assert listing[..|listing|] == listing;
    LookupJoined(directory, docs);
  }

  /** In a dict whose every value is its key joined to directory, every key looks up its joined path. */
  lemma LookupJoined(directory: string, docs: Dict<string, string>)
    requires ValidDict(docs)
    requires forall i :: 0 <= i < |docs| ==> docs[i].1 == PathJoin(directory, docs[i].0)
    ensures forall name :: name in Keys(docs) ==> Get(docs, name) == Some(PathJoin(directory, name))
  {
    forall name | name in Keys(docs)
      ensures Get(docs, name) == Some(PathJoin(directory, name))
    {
      var k :| 0 <= k < |docs| && Keys(docs)[k] == name;
      var entry := docs[k];
      assert entry.0 == name && entry.1 == PathJoin(directory, name);
      GetAt(docs, k);
    }
  }
}

=== FILE: rag_preprocess.dfy ===
/**
 * src/rag/preprocess1.py, the text part: _clean_text and _split_into_paragraphs.
 * The PDF, table and OCR extraction around them is not part of this model.
 */
module RagPreprocess {
  import opened Wrappers
  import opened Text
  import opened Seqs
  import Preprocess

  /** Whitespace characters are plain ' ' and never two in a row. */
  predicate Collapsed(s: string) {
    forall i :: 0 <= i < |s| && IsSpace(s[i]) ==> s[i] == ' ' && (i + 1 < |s| ==> !IsSpace(s[i + 1]))
  }

  /** re.sub(r'\s+', ' ', s): every maximal whitespace run becomes one ' '. */
  function CollapseWhitespace(s: string): (r: string)
    ensures Collapsed(r)
    ensures s == [] <==> r == []
    ensures s != [] ==> (IsSpace(r[0]) <==> IsSpace(s[0]))
    decreases |s|
  {
    if s == [] then []
    else if IsSpace(s[0]) then
      var rest := CollapseWhitespace(s[SpaceLen(s)..]);
      var r := " " + rest;
      assert forall i :: 0 < i < |r| ==> r[i] == rest[i - 1];
      r
    else
      var n := WordLen(s);
      var word, rest := s[..n], CollapseWhitespace(s[n..]);
      var r := word + rest;
      assert forall i :: 0 <= i < n ==> r[i] == word[i];
      assert forall i :: n <= i < |r| ==> r[i] == rest[i - n];
      r
  }

  /** A trailing whitespace run survives as one ' ', so the last character is whitespace exactly when the input's is. */
  lemma {:induction false} CollapseWhitespaceLast(s: string)
    requires s != []
    ensures var r := CollapseWhitespace(s); IsSpace(r[|r| - 1]) <==> IsSpace(s[|s| - 1])
    decreases |s|
  {
    var r := CollapseWhitespace(s);
    if IsSpace(s[0]) {
      var k := SpaceLen(s);
      var rest := CollapseWhitespace(s[k..]);
      assert r == " " + rest;
      if k == |s| {
        assert s[..k][k - 1] == s[|s| - 1];
      } else {
        CollapseWhitespaceLast(s[k..]);
        assert s[k..][|s| - k - 1] == s[|s| - 1];
      }
    } else {
      var n := WordLen(s);
      var rest := CollapseWhitespace(s[n..]);
      assert r == s[..n] + rest;
      if n < |s| {
        CollapseWhitespaceLast(s[n..]);
        assert s[n..][|s| - n - 1] == s[|s| - 1];
      }
    }
  }

  /** Collapsing whitespace runs changes no word. */
  lemma {:induction false} SplitCollapseWhitespace(s: string)
    ensures Split(CollapseWhitespace(s)) == Split(s)
    decreases |s|
  {
    if s != [] {
      if IsSpace(s[0]) {
        var k := SpaceLen(s);
        SplitCollapseWhitespace(s[k..]);
        SplitCollapsedSpaces(s, k);
      } else {
        var n := WordLen(s);
        SplitCollapseWhitespace(s[n..]);
        SplitCollapsedWord(s, n);
      }
    }
  }

  /** The step of SplitCollapseWhitespace for a leading run of k whitespace characters. */
  lemma SplitCollapsedSpaces(s: string, k: nat)
    requires s != [] && IsSpace(s[0]) && k == SpaceLen(s)
    requires Split(CollapseWhitespace(s[k..])) == Split(s[k..])
    ensures Split(CollapseWhitespace(s)) == Split(s)
  {
    var rest := CollapseWhitespace(s[k..]);
    assert CollapseWhitespace(s) == " " + rest;
    assert Split(" " + rest) == Split(rest) by {
      SplitSkipSpace(" " + rest);
      assert (" " + rest)[1..] == rest;
    }
    assert Split(s) == Split(s[k..]) by {
      SplitAfterSpaces(s[..k], s[k..]);
      TakeDrop(s, k);
    }
  }

  /** The step of SplitCollapseWhitespace for a leading word of n characters. */
  lemma SplitCollapsedWord(s: string, n: nat)
    requires s != [] && !IsSpace(s[0]) && n == WordLen(s)
    requires Split(CollapseWhitespace(s[n..])) == Split(s[n..])
    ensures Split(CollapseWhitespace(s)) == Split(s)
  {
    var word := s[..n];
    var rest := CollapseWhitespace(s[n..]);
    assert CollapseWhitespace(s) == word + rest;
    assert Split(word + rest) == Split(word) + Split(rest) by {
      if rest != [] {
        assert IsSpace(s[n..][0]);
      }
      SplitAppend(word, rest);
    }
    assert Split(s) == Split(word) + Split(s[n..]) by {
      if n < |s| {
        assert IsSpace(s[n..][0]);
      }
      SplitAppend(word, s[n..]);
      TakeDrop(s, n);
    }
  }

  /** A suffix of collapsed text is collapsed. */
  lemma CollapsedTail(s: string, a: nat)
    requires Collapsed(s) && a <= |s|
    ensures Collapsed(s[a..])
  {
    var r := s[a..];
    assert forall i :: 0 <= i < |r| ==> r[i] == s[a + i];
  }

  /** A prefix of collapsed text is collapsed. */
  lemma CollapsedPrefix(s: string, b: nat)
    requires Collapsed(s) && b <= |s|
    ensures Collapsed(s[..b])
  {
    var r := s[..b];
    assert forall i :: 0 <= i < |r| ==> r[i] == s[i];
  }

  /** Collapsed text without whitespace at its ends is normalised. */
  lemma CollapsedNormal(s: string)
    requires Collapsed(s) && NoEdgeSpace(s)
    ensures Normal(s)
  {
  }

  /** Stripping collapsed text leaves it normalised. */
  lemma StripCollapsed(s: string)
    requires Collapsed(s)
    ensures Normal(Strip(s))
  {
    var l := TrimLeft(s);
    CollapsedTail(s, |s| - |l|);
    var r := TrimRight(l);
    CollapsedPrefix(l, |r|);
    CollapsedNormal(r);
  }

  /** _clean_text: collapse whitespace runs to one space, then strip. */
  function CleanText(text: string): (r: string)
    ensures Normal(r)
    ensures Split(r) == Split(text)
  {
    var collapsed := CollapseWhitespace(text);
    SplitCollapseWhitespace(text);
    SplitStrip(collapsed);
    StripCollapsed(collapsed);
    Strip(collapsed)
  }

  /** The two cleaners of the code base agree on every input. */
  lemma CleanTextAgrees(text: string)
    ensures CleanText(text) == Preprocess.CleanText(text)
  {
    var c := CleanText(text);
    NormalJoinSplit(c);
    SplitStrip(text);
  }

  /** Cleaning twice is cleaning once. */
  lemma CleanTextIdempotent(text: string)
    ensures CleanText(CleanText(text)) == CleanText(text)
  {
    CleanTextAgrees(text);
    CleanTextAgrees(CleanText(text));
    Preprocess.CleanTextIdempotent(text);
  }

  /** Text is blank when strip() leaves nothing: exactly when it is all whitespace. */
  lemma StripEmpty(s: string)
    ensures Strip(s) == "" <==> AllSpace(s)
  {
    SplitStrip(s);
    SplitEmpty(s);
    SplitEmpty(Strip(s));
    if Strip(s) != "" {
      assert !IsSpace(Strip(s)[0]);
    }
  }

  /** One line of the comprehension: kept and cleaned when p.strip() is non-empty. */
  function CleanedIfNonBlank(line: string): Option<string> {
    if Strip(line) != "" then Some(CleanText(line)) else None
  }

  /** _split_into_paragraphs: [_clean_text(p) for p in page_text.split('\n') if p.strip()]. */
  function SplitIntoParagraphs(pageText: string): (r: seq<string>)
    ensures |r| <= |SplitOn(pageText, '\n')|
  {
    FilterMap(SplitOn(pageText, '\n'), CleanedIfNonBlank)
  }

  /** Every paragraph is non-empty and normalised, and so holds no newline. */
  lemma ParagraphsShape(pageText: string)
    ensures forall i :: 0 <= i < |SplitIntoParagraphs(pageText)| ==>
      var p := SplitIntoParagraphs(pageText)[i];
      p != "" && Normal(p) && '\n' !in p
  {
    var lines := SplitOn(pageText, '\n');
    var ps := SplitIntoParagraphs(pageText);
    var idx := Kept(lines, CleanedIfNonBlank);
    FilterMapKept(lines, CleanedIfNonBlank);
    forall j | 0 <= j < |ps| ensures ps[j] != "" && Normal(ps[j]) && '\n' !in ps[j] {
      var line := lines[idx[j]];
      assert Strip(line) != "" && ps[j] == CleanText(line);
      CleanedLineShape(line);
    }
  }

  /** A cleaned non-blank line is non-empty, normalised and free of newlines. */
  lemma CleanedLineShape(line: string)
    requires Strip(line) != ""
    ensures CleanText(line) != "" && Normal(CleanText(line)) && '\n' !in CleanText(line)
  {
    var p := CleanText(line);
    assert p != "" by {
      StripEmpty(line);
      SplitEmpty(line);
      SplitEmpty(p);
    }
    NormalHasNoNewline(p);
  }

  /** Normalised text holds no whitespace but ' ', so no newline. */
  lemma NormalHasNoNewline(p: string)
    requires Normal(p)
    ensures '\n' !in p
  {
    assert IsSpace('\n');
    assert forall k :: 0 <= k < |p| ==> p[k] != '\n';
  }

  /**
   * The paragraphs are the cleaned non-blank lines, one for one and in order:
   * the j-th paragraph cleans the j-th line whose strip() is non-empty.
   */
  lemma ParagraphsAreCleanedLines(pageText: string)
    ensures var lines := SplitOn(pageText, '\n');
      var idx := Kept(lines, CleanedIfNonBlank);
      && |SplitIntoParagraphs(pageText)| == |idx|
      && Increasing(idx)
      && (forall i :: 0 <= i < |lines| ==> (i in idx <==> Strip(lines[i]) != ""))
      && (forall j :: 0 <= j < |idx| ==> idx[j] < |lines| && SplitIntoParagraphs(pageText)[j] == CleanText(lines[idx[j]]))
  {
    FilterMapKept(SplitOn(pageText, '\n'), CleanedIfNonBlank);
  }

  /** Text made only of whitespace, newlines included, has no paragraphs. */
  lemma BlankPageHasNoParagraphs(pageText: string)
    requires AllSpace(pageText)
    ensures SplitIntoParagraphs(pageText) == []
  {
    var lines := SplitOn(pageText, '\n');
    SplitOnChars(pageText, '\n');
    forall i | 0 <= i < |lines| ensures !CleanedIfNonBlank(lines[i]).Some? {
      forall k | 0 <= k < |lines[i]| ensures IsSpace(lines[i][k]) {
        assert lines[i][k] in pageText;
      }
      StripEmpty(lines[i]);
    }
    FilterMapNone(lines, CleanedIfNonBlank);
  }
}

=== FILE: seqs.dfy ===
/**
 * The filtered list comprehension [g(x) for x in xs if keep(x)], written as one
 * function f: T -> Option<U> that returns None for the elements left out.
 */
module Seqs {
  import opened Wrappers

  function AsSeq<U>(o: Option<U>): seq<U> {
    match o
    case Some(y) => [y]
    case None => []
  }

  /** The kept results, in the order of s. */
  function FilterMap<T, U>(s: seq<T>, f: T -> Option<U>): (r: seq<U>)
    ensures |r| <= |s|
  {
    if s == [] then []
    else FilterMap(s[..|s| - 1], f) + AsSeq(f(s[|s| - 1]))
  }

  predicate Increasing(idx: seq<nat>) {
    forall i, j :: 0 <= i < j < |idx| ==> idx[i] < idx[j]
  }

  /** The positions of s whose element f keeps, in increasing order. */
  function Kept<T, U>(s: seq<T>, f: T -> Option<U>): (idx: seq<nat>)
    ensures Increasing(idx)
    ensures forall j :: 0 <= j < |idx| ==> idx[j] < |s|
    ensures forall i :: 0 <= i < |s| ==> (i in idx <==> f(s[i]).Some?)
  {
    if s == [] then []
    else
      var n := |s| - 1;
      var front := Kept(s[..n], f);
      assert forall i :: 0 <= i < n ==> s[..n][i] == s[i];
      front + (if f(s[n]).Some? then [n] else [])
  }

  /** The j-th result comes from the j-th kept position: order is kept and nothing else is. */
  lemma {:induction false} FilterMapKept<T, U>(s: seq<T>, f: T -> Option<U>)
    ensures |FilterMap(s, f)| == |Kept(s, f)|
    ensures forall j :: 0 <= j < |Kept(s, f)| ==>
      f(s[Kept(s, f)[j]]).Some? && FilterMap(s, f)[j] == f(s[Kept(s, f)[j]]).value
    decreases |s|
  {
    if s != [] {
      var n := |s| - 1;
      FilterMapKept(s[..n], f);
      var front, idx := FilterMap(s[..n], f), Kept(s[..n], f);
      var r, k := FilterMap(s, f), Kept(s, f);
      assert r == front + AsSeq(f(s[n]));
      assert k == idx + (if f(s[n]).Some? then [n] else []);
      forall j | 0 <= j < |k| ensures f(s[k[j]]).Some? && r[j] == f(s[k[j]]).value {
        if j < |idx| {
          assert k[j] == idx[j] && r[j] == front[j];
          assert s[..n][idx[j]] == s[idx[j]];
        }
      }
    }
  }

  /** Nothing is kept when f keeps no element. */
  lemma {:induction false} FilterMapNone<T, U>(s: seq<T>, f: T -> Option<U>)
    requires forall i :: 0 <= i < |s| ==> f(s[i]).None?
    ensures FilterMap(s, f) == []
    decreases |s|
  {
    if s != [] {
      var n := |s| - 1;
      assert forall i :: 0 <= i < n ==> s[..n][i] == s[i];
      FilterMapNone(s[..n], f);
    }
  }
}

=== FILE: text.dfy ===
/**
 * The Python string operations the pipeline's text handling is built from:
 * str.isspace (which is also what `\s` matches in a str pattern), str.split()
 * without a separator, str.split(sep), sep.join(parts) and str.strip().
 * Strings are sequences of Unicode scalar values.
 */
module Text {

  /** str.isspace() on one character: the characters Python treats as whitespace. */
  predicate IsSpace(c: char) {
    ('\t' <= c <= '\r') || ('\U{1C}' <= c <= '\U{1F}') || c == ' '
    || c == '\U{85}' || c == '\U{A0}' || c == '\U{1680}'
    || ('\U{2000}' <= c <= '\U{200A}') || c == '\U{2028}' || c == '\U{2029}'
    || c == '\U{202F}' || c == '\U{205F}' || c == '\U{3000}'
  }

  predicate AllSpace(s: string) {
    forall i :: 0 <= i < |s| ==> IsSpace(s[i])
  }

  /** A word as str.split() produces it: non-empty and free of whitespace. */
  predicate IsWord(w: string) {
    |w| > 0 && forall i :: 0 <= i < |w| ==> !IsSpace(w[i])
  }

  predicate AllWords(ws: seq<string>) {
    forall i :: 0 <= i < |ws| ==> IsWord(ws[i])
  }

  /** No whitespace at either end. */
  predicate NoEdgeSpace(s: string) {
    s == [] || (!IsSpace(s[0]) && !IsSpace(s[|s| - 1]))
  }

  /** Every whitespace character is a plain ' ' followed by a non-whitespace character. */
  predicate SingleSpaced(s: string) {
    forall i :: 0 <= i < |s| && IsSpace(s[i]) ==> s[i] == ' ' && i + 1 < |s| && !IsSpace(s[i + 1])
  }

  /** Whitespace-normalised text: words separated by exactly one ' ', nothing at the ends. */
  predicate Normal(s: string) {
    NoEdgeSpace(s) && SingleSpaced(s)
  }

  /** Length of the longest prefix of s that holds no whitespace. */
  function WordLen(s: string): (n: nat)
    ensures n <= |s|
    ensures forall i :: 0 <= i < n ==> !IsSpace(s[i])
    ensures n < |s| ==> IsSpace(s[n])
  {
    if s == [] || IsSpace(s[0]) then 0 else 1 + WordLen(s[1..])
  }

  /** Length of the longest prefix of s that is all whitespace. */
  function SpaceLen(s: string): (n: nat)
    ensures n <= |s|
    ensures AllSpace(s[..n])
    ensures n < |s| ==> !IsSpace(s[n])
  {
    if s == [] || !IsSpace(s[0]) then 0
    else
      var n := 1 + SpaceLen(s[1..]);
      assert s[..n] == [s[0]] + s[1..][..n - 1];
      n
  }

  /** str.split() with no separator: the maximal runs of non-whitespace, in order. */
  function Split(s: string): (ws: seq<string>)
    ensures AllWords(ws)
    decreases |s|
  {
    if s == [] then []
    else if IsSpace(s[0]) then Split(s[1..])
    else
      var n := WordLen(s);
      [s[..n]] + Split(s[n..])
  }

  /** sep.join(parts). */
  function Join(sep: string, parts: seq<string>): string {
    if |parts| == 0 then ""
    else if |parts| == 1 then parts[0]
    else parts[0] + sep + Join(sep, parts[1..])
  }

  /**
   * sep.join(parts) begins with the first part, ends with the last, and
   * puts sep right after the first part when there are at least two.
   */
  lemma {:induction false} JoinEnds(sep: string, parts: seq<string>)
    requires |parts| > 0
    ensures var r := Join(sep, parts);
      && parts[0] <= r
      && |parts[|parts| - 1]| <= |r|
      && r[|r| - |parts[|parts| - 1]|..] == parts[|parts| - 1]
      && (|parts| > 1 ==> r[|parts[0]|..|parts[0]| + |sep|] == sep)
  {
    if |parts| > 1 {
      var rest := Join(sep, parts[1..]);
      JoinEnds(sep, parts[1..]);
      assert Join(sep, parts) == parts[0] + sep + rest;
      assert parts[|parts| - 1] == parts[1..][|parts[1..]| - 1];
    }
  }

  /** str.lstrip(): drop the leading whitespace. */
  function TrimLeft(s: string): (r: string)
    ensures |r| <= |s| && r == s[|s| - |r|..]
    ensures AllSpace(s[..|s| - |r|])
    ensures r == [] || !IsSpace(r[0])
    decreases |s|
  {
    if s != [] && IsSpace(s[0]) then
      var r := TrimLeft(s[1..]);
      assert s[..|s| - |r|] == [s[0]] + s[1..][..|s| - 1 - |r|];
      r
    else s
  }

  /** str.rstrip(): drop the trailing whitespace. */
  function TrimRight(s: string): (r: string)
    ensures |r| <= |s| && r == s[..|r|]
    ensures AllSpace(s[|r|..])
    ensures r == [] || !IsSpace(r[|r| - 1])
    decreases |s|
  {
    if s != [] && IsSpace(s[|s| - 1]) then
      var r := TrimRight(s[..|s| - 1]);
      assert s[|r|..] == s[..|s| - 1][|r|..] + [s[|s| - 1]];
      r
    else s
  }

  /** str.strip(): drop the whitespace at both ends. */
  function Strip(s: string): (r: string)
    ensures NoEdgeSpace(r)
  {
    TrimRight(TrimLeft(s))
  }

  /** Position of the first sep in s, or |s| when there is none. */
  function IndexOf(s: string, sep: char): (n: nat)
    ensures n <= |s| && sep !in s[..n]
    ensures n < |s| ==> s[n] == sep
  {
    if s == [] || s[0] == sep then 0
    else
      var n := 1 + IndexOf(s[1..], sep);
      assert s[..n] == [s[0]] + s[1..][..n - 1];
      n
  }

  /** str.split(sep) for a one-character sep: the pieces between the separators, empty ones included. */
  function SplitOn(s: string, sep: char): (pieces: seq<string>)
    ensures |pieces| >= 1
    ensures forall i :: 0 <= i < |pieces| ==> sep !in pieces[i]
    decreases |s|
  {
    var n := IndexOf(s, sep);
    if n == |s| then [s]
    else
      [s[..n]] + SplitOn(s[n + 1..], sep)
  }

  // ---------------------------------------------------------------------
  // Lemmas about Split

  /** WordLen is pinned down by its two defining properties. */
  lemma WordLenUnique(s: string, m: nat)
    requires m <= |s|
    requires forall i :: 0 <= i < m ==> !IsSpace(s[i])
    requires m == |s| || IsSpace(s[m])
    ensures WordLen(s) == m
  {
  }

  /** A word splits into itself. */
  lemma SplitWord(w: string)
    requires IsWord(w)
    ensures Split(w) == [w]
  {
    WordLenUnique(w, |w|);
    assert w[|w|..] == [];
    assert w[..|w|] == w;
  }

  /** Whitespace-only text has no words, and only it. */
  lemma {:induction false} SplitEmpty(s: string)
    ensures Split(s) == [] <==> AllSpace(s)
    decreases |s|
  {
    if s != [] {
      if IsSpace(s[0]) {
        SplitEmpty(s[1..]);
        if AllSpace(s[1..]) {
          forall i | 0 <= i < |s| ensures IsSpace(s[i]) {
            if i > 0 { assert s[i] == s[1..][i - 1]; }
          }
        }
      }
    }
  }

  /**
   * Splitting distributes over a concatenation whenever the seam cannot fall
   * inside a word: one side is empty or whitespace sits at the seam.
   */
  lemma {:induction false} SplitAppend(s: string, t: string)
    requires s == [] || t == [] || IsSpace(s[|s| - 1]) || IsSpace(t[0])
    ensures Split(s + t) == Split(s) + Split(t)
    decreases |s|
  {
    if s == [] {
      assert s + t == t;
    } else if t == [] {
      assert s + t == s;
    } else if IsSpace(s[0]) {
      assert (s + t)[1..] == s[1..] + t;
      SplitAppend(s[1..], t);
    } else {
      var n := WordLen(s);
      SplitAppendWord(s, t);
      SplitAppend(s[n..], t);
    }
  }

  /** The first word of s + t is the first word of s when the seam holds whitespace. */
  lemma SplitAppendWord(s: string, t: string)
    requires s != [] && t != [] && !IsSpace(s[0])
    requires IsSpace(s[|s| - 1]) || IsSpace(t[0])
    ensures Split(s + t) == [s[..WordLen(s)]] + Split(s[WordLen(s)..] + t)
  {
    var n := WordLen(s);
    var st := s + t;
    SliceAppend(s, t, n);
    assert WordLen(st) == n by {
      assert forall i :: 0 <= i < n ==> st[i] == s[i];
      if n < |s| {
        assert st[n] == s[n];
      } else {
        assert st[n] == t[0];
      }
      WordLenUnique(st, n);
    }
    SplitFirstWord(st);
  }

  /** Cutting a concatenation inside its first part. */
  lemma SliceAppend<T>(a: seq<T>, b: seq<T>, n: nat)
    requires n <= |a|
    ensures (a + b)[..n] == a[..n]
    ensures (a + b)[n..] == a[n..] + b
  {
  }

  /** A sequence is its prefix followed by its suffix. */
  lemma TakeDrop<T>(s: seq<T>, k: nat)
    requires k <= |s|
    ensures s[..k] + s[k..] == s
  {
  }

  /** Text that starts with a word splits into that word and the words of the rest. */
  lemma SplitFirstWord(s: string)
    requires s != [] && !IsSpace(s[0])
    ensures Split(s) == [s[..WordLen(s)]] + Split(s[WordLen(s)..])
  {
  }

  /** Leading whitespace contributes no words. */
  lemma SplitAfterSpaces(p: string, t: string)
    requires AllSpace(p)
    ensures Split(p + t) == Split(t)
  {
    SplitEmpty(p);
    if p != [] { SplitAppend(p, t); }
    else { assert p + t == t; }
  }

  /** Stripping the ends changes no word. */
  lemma SplitStrip(s: string)
    ensures Split(Strip(s)) == Split(s)
  {
    SplitTrimLeft(s);
    SplitTrimRight(TrimLeft(s));
  }

  lemma SplitTrimLeft(s: string)
    ensures Split(TrimLeft(s)) == Split(s)
  {
    var l := TrimLeft(s);
    var p := s[..|s| - |l|];
    assert s == p + l;
    SplitAfterSpaces(p, l);
  }

  lemma SplitTrimRight(s: string)
    ensures Split(TrimRight(s)) == Split(s)
  {
    var r := TrimRight(s);
    var q := s[|r|..];
    assert s == r + q;
    SplitEmpty(q);
    if q != [] { SplitAppend(r, q); }
  }

  /** Every character of every piece of SplitOn comes from the text. */
  lemma {:induction false} SplitOnChars(s: string, sep: char)
    ensures forall i, c :: 0 <= i < |SplitOn(s, sep)| && c in SplitOn(s, sep)[i] ==> c in s
    decreases |s|
  {
    var n := IndexOf(s, sep);
    if n < |s| {
      SplitOnChars(s[n + 1..], sep);
      var rest := SplitOn(s[n + 1..], sep);
      assert SplitOn(s, sep) == [s[..n]] + rest;
      forall i, c | 0 <= i < |rest| && c in rest[i] ensures c in s {
        assert c in s[n + 1..];
      }
    }
  }

  /** Joining words with single spaces and splitting again gives the words back. */
  lemma {:induction false} SplitJoin(ws: seq<string>)
    requires AllWords(ws)
    ensures Split(Join(" ", ws)) == ws
    decreases |ws|
  {
    if |ws| == 1 {
      SplitWord(ws[0]);
    } else if |ws| > 1 {
      var rest := Join(" ", ws[1..]);
      assert Join(" ", ws) == ws[0] + (" " + rest);
      SplitAppend(ws[0], " " + rest);
      SplitWord(ws[0]);
      assert (" " + rest)[1..] == rest;
      SplitJoin(ws[1..]);
      assert ws == [ws[0]] + ws[1..];
    }
  }

  /** The single-space join of words is whitespace-normalised. */
  lemma {:induction false} JoinNormal(ws: seq<string>)
    requires AllWords(ws)
    ensures Normal(Join(" ", ws))
    decreases |ws|
  {
    if |ws| > 1 {
      var w, rest := ws[0], Join(" ", ws[1..]);
      JoinNormal(ws[1..]);
      JoinNonEmpty(ws[1..]);
      var s := Join(" ", ws);
      assert s == w + " " + rest;
      assert forall i :: 0 <= i < |w| ==> s[i] == w[i];
      forall i | 0 <= i < |s| && IsSpace(s[i])
        ensures s[i] == ' ' && i + 1 < |s| && !IsSpace(s[i + 1])
      {
        if i > |w| {
          assert s[i] == rest[i - |w| - 1];
          if i + 1 < |s| { assert s[i + 1] == rest[i - |w|]; }
        }
      }
    }
  }

  /** Joining at least one word gives non-empty text. */
  lemma {:induction false} JoinNonEmpty(ws: seq<string>)
    requires AllWords(ws) && |ws| > 0
    ensures |Join(" ", ws)| > 0
  {
  }

  /** Normalised text is the single-space join of its own words. */
  lemma {:induction false} NormalJoinSplit(s: string)
    requires Normal(s)
    ensures Join(" ", Split(s)) == s
    decreases |s|
  {
    if s != [] {
      var n := WordLen(s);
      if n == |s| {
        SplitWord(s);
      } else {
        var rest := s[n + 1..];
        assert s == s[..n] + " " + rest;
        NormalAfterWord(s);
        NormalJoinSplit(rest);
        JoinCons(s[..n], Split(rest));
      }
    }
  }

  /** Joining one more word in front adds it and one space. */
  lemma JoinCons(w: string, ws: seq<string>)
    requires ws != []
    ensures Join(" ", [w] + ws) == w + " " + Join(" ", ws)
  {
    assert ([w] + ws)[1..] == ws;
  }

  /** In normalised text a first word that is not the whole text is followed by one ' ' and normalised text. */
  lemma NormalAfterWord(s: string)
    requires Normal(s) && s != [] && WordLen(s) < |s|
    ensures var n := WordLen(s);
      && s[n] == ' '
      && Normal(s[n + 1..])
      && Split(s[n + 1..]) != []
      && Split(s) == [s[..n]] + Split(s[n + 1..])
  {
    var n := WordLen(s);
    var rest := s[n + 1..];
    assert s[n..][1..] == rest;
    NormalTail(s, n + 1);
    assert Split(s[n..]) == Split(rest) by {
      SplitSkipSpace(s[n..]);
    }
    assert Split(rest) != [] by {
      SplitEmpty(rest);
    }
    SplitFirstWord(s);
  }

  /** What follows a whitespace character inside normalised text is normalised. */
  lemma NormalTail(s: string, m: nat)
    requires Normal(s) && 0 < m < |s| && IsSpace(s[m - 1])
    ensures Normal(s[m..])
  {
    var r := s[m..];
    assert forall i :: 0 <= i < |r| ==> r[i] == s[m + i];
  }

  /** Leading whitespace is skipped by split(). */
  lemma SplitSkipSpace(s: string)
    requires s != [] && IsSpace(s[0])
    ensures Split(s) == Split(s[1..])
  {
  }

  // ---------------------------------------------------------------------
  // Lemmas about SplitOn

  /** Joining the pieces with the separator gives the original text back. */
  lemma {:induction false} JoinSplitOn(s: string, sep: char)
    ensures Join([sep], SplitOn(s, sep)) == s
    decreases |s|
  {
    var n := IndexOf(s, sep);
    if n < |s| {
      var rest := SplitOn(s[n + 1..], sep);
      JoinSplitOn(s[n + 1..], sep);
      assert SplitOn(s, sep) == [s[..n]] + rest;
      assert s == s[..n] + [sep] + s[n + 1..];
    }
  }
}

=== FILE: wrappers.dfy ===
/** Option and Result, for the places where the Python code raises or skips. */
module Wrappers {

  datatype Option<+T> = None | Some(value: T)

  datatype Result<+T, +E> = Ok(value: T) | Err(error: E)
}
